=== FILE: README.md ===
# IDX keep-alive daemon: a Dafny model of its core

The daemon keeps a cloud development workspace (Google IDX) from being
reclaimed for inactivity. It comes in two variants. `index.js` sends a plain
HTTPS GET to the workspace on a timer. `index-authenticated.js` drives a
browser through the workspace with saved Google session cookies. Each variant
keeps a status register (`pingCount`, `lastPingStatus`, `lastPingTime`) and
serves it on a health endpoint.

This project models the deterministic rules under that plumbing:

- **Text** (`text.dfy`): JavaScript's `includes`. The tests on landing URLs,
  cookie names and error messages are containment tests (the two `PSID`
  cookie names, the health routes and `HEADLESS` are compared exactly, and
  the alive check is a numeric range).
- **JsNumber** (`js_number.dfy`): `parseInt` without a radix (white space, sign,
  `0x`, longest digit run, `NaN` as `None`) and the decimal text of an integer
  in a template string.
- **Config** (`config.dfy`): the `CONFIG` objects. Text settings use
  `value || default`, numbers use `parseInt(value) || default`, and `HEADLESS`
  is on unless its value is exactly `false`.
- **Cookies** (`cookies.dfy`): the critical-cookie expiry check
  `areCookiesExpiring`, the source precedence of `loadCookies`, and
  `saveCookies`.
- **StatusRegister** (`status_register.dfy`): the register and the five kinds
  of status text.
- **AuthPinger** (`auth_pinger.dfy`): one cycle of the authenticated
  `pingIDXWorkspace`, as a transition of the register plus the browser slot.
  The browser's behaviour is an input of the cycle: the launch outcome, the
  landing URL and status or the error thrown before landing, any error a later
  browser call throws, and the page's cookies.
- **PlainPinger** (`plain_pinger.dfy`): the request options of the plain
  pinger, the register updates of its `end`, `error` and `timeout` handlers,
  and the alive range.
- **Health** (`health.dfy`): both health handlers.

Time is an input. Cookie expiry arithmetic uses seconds as exact reals, and
ISO timestamps and the process uptime are opaque values passed in.

Three behaviours of the code are easy to misread:

- Critical cookies without a truthy `expirationDate` are never flagged. A
  list whose critical cookies are all session cookies is *not* expiring
  (`Cookies.SessionCriticalCookiesAreNotExpiring`).
- The ping interval keeps any non-zero `parseInt` result, negative ones
  included (`Config.NegativeIntervalKept`).
- A request for any other path gets a 404 whose body is the text
  `Not Found` (`Health.AuthRespond`, `Health.PlainRespond`).

## Model

| member | source | states |
|---|---|---|
| Text.Contains | index-authenticated.js:55-56 | `includes` is true exactly when the needle occurs at some index of the text |
| JsNumber.ParseInt | index.js:7 | text that is empty after the leading white space reads as NaN, and a negative reading needs a `-` as its first character after that white space |
| JsNumber.IntToDecimal | index.js:48 | the text of an integer in a template string is a non-empty run of decimal digits, with a leading `-` exactly for negatives, and canonical: zero is exactly `0`, and no other number starts with `0` |
| JsNumber.NatToDecimalLeadingZero | index.js:48 | the decimal text of a natural number starts with `0` exactly when the number is zero |
| JsNumber.ParseIntAfterMinus | index.js:7 | a leading `-` negates what `parseInt` reads from the rest |
| JsNumber.ParseIntOfDecimal | index.js:7 | `parseInt` reads back the decimal text of every integer, negative ones included |
| JsNumber.ParseIntStopsAtNonDigit | index.js:7 | a number followed by non-digit text is read up to that text, except that a lone `0` before `x`/`X` switches to hexadecimal |
| JsNumber.ParseIntIgnoresLeadingWhiteSpace | index.js:7 | leading ECMAScript white space never changes what `parseInt` reads |
| JsNumber.ParseIntReadsLeadingDigits | index.js:7 | `parseInt("42px")` is 42 |
| JsNumber.ParseIntSkipsSpaces | index.js:7 | `parseInt("  42px")` reads the same as `parseInt("42px")` |
| JsNumber.ParseIntReadsHexadecimal | index.js:7 | `parseInt("0x1A")` is 26 and `parseInt("0x")` is NaN |
| JsNumber.ParseIntRejectsNonNumbers | index.js:7 | `parseInt("abc")` and `parseInt("")` are NaN |
| Config.TextOr | index-authenticated.js:8 | a text setting keeps a non-empty environment value and otherwise falls back, so it is never empty when the fallback is not |
| Config.IntOr | index.js:7 | a numeric setting falls back when the value is missing, unparseable or reads as zero; any other reading is kept; the result is never zero when the fallback is not |
| Config.HeadlessFrom | index-authenticated.js:12 | headless is off exactly when the value is the text `false` |
| Config.AuthConfigFrom | index-authenticated.js:7-13 | the authenticated configuration takes each variable or its default: two-minute interval, port 8080, `/data/cookies.json`; interval and port are never zero and URL and file are never empty |
| Config.PlainConfigFrom | index.js:5-10 | the plain configuration takes each variable or its default: five-minute interval, empty session cookie, port 8080; the interval is never zero |
| Config.PlainIntervalDefaults | index.js:7 | the interval is 300000 ms when the variable is missing, unparseable (`abc`) or zero |
| Config.NegativeIntervalKept | index.js:7 | an interval of `-5` is kept as -5 |
| Config.HeadlessExamples | index-authenticated.js:12 | `FALSE`, `0` and an unset variable all leave headless on; only `false` turns it off |
| Cookies.IsCritical | index-authenticated.js:54-59 | a cookie is critical exactly when its name contains `SIDTS` or `SIDCC` at some position, or is `__Secure-1PSID` or `__Secure-3PSID` |
| Cookies.Critical | index-authenticated.js:54-59 | the filtered list holds each critical cookie of the input as often as the input does, and no other cookie |
| Cookies.CriticalOfConcat | index-authenticated.js:54-59 | the critical cookies of `a + b` are those of `a` followed by those of `b`, so the filter keeps the input's order |
| Cookies.AnyExpiresWithin | index-authenticated.js:66-77 | the scan is true exactly when some cookie of the list has a truthy expiry less than the buffer away |
| Cookies.AreCookiesExpiring | index-authenticated.js:47-78 | a null or empty list, or one with no critical cookie, is expiring; otherwise the list is expiring exactly when some critical cookie with a truthy expiry is less than `bufferMinutes*60` seconds from now |
| Cookies.DependsOnlyOnCriticalCookies | index-authenticated.js:54-77 | two lists with the same critical cookies get the same verdict, so adding, removing or reordering non-critical cookies changes nothing |
| Cookies.NonCriticalCookieIsIgnored | index-authenticated.js:54-77 | inserting a non-critical cookie anywhere leaves the verdict unchanged |
| Cookies.SessionCriticalCookiesAreNotExpiring | index-authenticated.js:66-77 | when critical cookies are present but none has a truthy expiry, the list is not expiring |
| Cookies.WiderBufferFlagsMore | index-authenticated.js:51-69 | a list expiring under one buffer is expiring under any wider buffer |
| Cookies.LaterClockFlagsMore | index-authenticated.js:50-69 | a list expiring at one time is expiring at every later time |
| Cookies.ExpiryExamples | index-authenticated.js:47-78 | a `__Secure-1PSID` cookie 5 s from expiry is flagged with the 10-minute default buffer; one an hour away is not |
| Cookies.CriticalByContainment | index-authenticated.js:54-59 | `__Secure-1PSIDTS` is critical because it contains `SIDTS`; `NID` is not critical |
| Cookies.LoadCookies | index-authenticated.js:21-44 | a set and parseable base64 blob wins; otherwise the file is parsed; the result is null exactly when the blob does not parse and the file is missing or does not parse |
| Cookies.SaveCookies | index-authenticated.js:81-90 | a successful save leaves the file holding the serialized list; a failure before the open leaves the file as it was; a write that fails after the truncating open leaves a prefix of the serialized list, no longer than what was written; no failure raises |
| Cookies.InterruptedSaveLosesCookies | index-authenticated.js:36-90 | without a usable blob, a load after an interrupted save parses a truncated text, so a JSON layer that rejects truncated text returns null cookies |
| Cookies.SaveThenLoadRoundTrip | index-authenticated.js:36-44 | without a usable blob, loading after a successful save returns the saved list unchanged and in order, given a JSON layer that reads back what it writes |
| Cookies.BlobShadowsCookieFile | index-authenticated.js:23-34 | while the blob parses, the cookie file's content never affects what is loaded |
| StatusRegister.HttpStatus | index-authenticated.js:213 | the status of a completed ping is `HTTP ` followed by the canonical decimal text of the code |
| StatusRegister.HttpStatusReadsBack | index.js:48 | the status code can be read back from the text after `HTTP ` |
| StatusRegister.HttpStatusInjective | index.js:48 | different status codes give different status texts |
| StatusRegister.HttpStatusOk | index-authenticated.js:213 | status 200 is recorded as `HTTP 200` |
| StatusRegister.ErrorStatus | index-authenticated.js:256 | an error status is `ERROR: ` followed by the unchanged message |
| StatusRegister.StatusKindsDistinct | index-authenticated.js:178-256 | `never pinged`, `AUTH_REQUIRED`, `LOGIN_SUCCESS`, `HTTP <code>` and `ERROR: <message>` never coincide |
| AuthPinger.InitBrowser | index-authenticated.js:93-124 | a held browser is reused without a launch; an empty slot takes the launch outcome |
| AuthPinger.Catch | index-authenticated.js:253-270 | the error handler counts, records `ERROR: <message>`, stamps the time, and empties the browser slot exactly when the message contains `closed` or `detached` |
| AuthPinger.IsLoginUrl | index-authenticated.js:178 | a landing URL is a login page exactly when it contains `accounts.google.com` or `login` at some position |
| AuthPinger.IsWorkspaceUrl | index-authenticated.js:221 | a landing URL is the workspace exactly when it contains `idx.google.com` at some position and `login` at none |
| AuthPinger.IsCrashMessage | index-authenticated.js:260 | an error message means a crashed browser exactly when it contains `closed` or `detached` at some position |
| AuthPinger.Cycle | index-authenticated.js:127-280 | every cycle stamps the time; the loaded cookies' expiry verdict is logged exactly when a non-null list was loaded and the cycle got past `setCookie`, and it is the default-buffer verdict; a visible browser on a login URL waits with the register showing `AUTH_REQUIRED` and the count raised by one, and no other cycle waits |
| AuthPinger.Step | index-authenticated.js:127-280 | every cycle stamps the time; the count rises by 1 for a cycle that throws before landing or does not throw, and by 2 for one that throws after landing |
| AuthPinger.StepRecordsError | index-authenticated.js:253-256 | a cycle that throws records `ERROR: <message>` and saves no cookies |
| AuthPinger.StepOnLoginPage | index-authenticated.js:178-211 | a landing on a login URL records `AUTH_REQUIRED` and saves nothing when headless; with a visible browser, a completed login saves the page's cookies and records `LOGIN_SUCCESS` |
| AuthPinger.StepOnOtherPage | index-authenticated.js:212-251 | any other landing records `HTTP <code>` and saves the page's cookies exactly when the URL contains `idx.google.com`; the fresh-cookie check runs exactly beside a save |
| AuthPinger.StepBrowserSlot | index-authenticated.js:259-270 | the slot is emptied exactly by a crash-like error; otherwise it holds the browser used, which is the old one whenever one was held |
| AuthPinger.RecountChangesOnlyTheCount | index-authenticated.js:171-256 | counting an error after landing a second time changes the count and nothing else; without it the count ends one past the old count |
| AuthPinger.StepOnce | index-authenticated.js:171-175 | corrected cycle: the count rises by exactly 1, and status, time, browser slot, saved cookies and the register shown during a login wait are as in the written cycle |
| AuthPinger.CountsTwiceWhenLoginWaitTimesOut | index-authenticated.js:171-256 | a visible-browser cycle that lands on Google sign-in and whose login wait times out raises the count from 0 to 2 |
| AuthPinger.RunOnce | index-authenticated.js:314-318 | with the corrected cycle, the count after a run of cycles has risen by the number of cycles |
| AuthPinger.Run | index-authenticated.js:314-318 | as written, the count after n cycles has risen by at least n and at most 2n |
| AuthPinger.AuthRequiredOnlyWhenHeadless | index-authenticated.js:178-211 | at the end of a cycle, `AUTH_REQUIRED` is left exactly when a headless browser landed on a login URL |
| AuthPinger.ExpiryCheckIsAdvisory | index-authenticated.js:144-158 | the loaded cookies and the clock change neither the register nor what is saved |
| AuthPinger.ExpiringFreshCookiesAreStillSaved | index-authenticated.js:221-235 | workspace cookies that already look expired are saved anyway, and the verdict is logged as expiring |
| AuthPinger.BrowserReusedAcrossCycles | index-authenticated.js:93-94 | a browser kept by one cycle is the one the next cycle uses, whatever a launch would produce |
| AuthPinger.CrashForcesRelaunch | index-authenticated.js:259-270 | after a crash-like error the next cycle takes a fresh launch outcome |
| AuthPinger.WorkspaceLandingExample | index-authenticated.js:212-235 | a headless landing on the workspace with status 200 records `HTTP 200`, counts once and saves the page's cookies |
| PlainPinger.DefaultPort | index.js:23 | the default port is 443 for `https:` and 80 for any other protocol |
| PlainPinger.BuildRequest | index.js:17-36 | the request uses HTTPS exactly for `https:`, the URL's port or else the default, `pathname + search` as path, and GET with a 30 s timeout; it has two fixed headers and a `Cookie` header exactly when a session cookie is configured |
| PlainPinger.IsAlive | index.js:52 | a status code is alive when it lies in 200..399 |
| PlainPinger.AliveMeansSuccessOrRedirect | index.js:52-56 | a status is alive exactly when it is a 2xx or 3xx code |
| PlainPinger.Apply | index.js:45-70 | `end` and `error` each count one ping and record `HTTP <code>` or `ERROR: <message>` with the time; `timeout` changes nothing |
| PlainPinger.Replay | index.js:38-70 | after a run of handler events the count has risen by the number of non-timeout events |
| PlainPinger.LastHandlerDecidesStatus | index.js:45-65 | the status and time after a run are those of the last event that is not a timeout |
| Health.AuthRespond | index-authenticated.js:283-302 | only `/` and `/health` get 200; `status` is `auth_required` exactly when the last status is `AUTH_REQUIRED` and `running` otherwise, errors included; the other fields echo the register and configuration |
| Health.PlainRespond | index.js:76-94 | only `/` and `/health` get 200; `status` is always `running`, there is no `headless` field, and the other fields echo the register and configuration |
| Health.IsHealthRoute | index-authenticated.js:284 | the health routes are exactly `/health` and `/` |
| Health.Code | index-authenticated.js:284-300 | a response is 200 or 404, and 200 exactly for a JSON body |
| Health.HealthBeforeFirstPing | index-authenticated.js:15-17 | before any ping, the endpoint reports `running`, count 0, `never pinged` and a null time |
| Health.HandlersAgree | index.js:76-94 | unless the last status is `AUTH_REQUIRED`, the two handlers give the same answer apart from the `headless` field |
| Health.ReportsAuthRequiredAfterCycle | index-authenticated.js:287 | after a cycle as written, the endpoint says `auth_required` exactly when a headless browser landed on a login page |
| Health.ReportsAuthRequiredDuringLoginWait | index-authenticated.js:177-200 | while a visible browser waits for a manual login, the endpoint already says `auth_required`, with the count raised by this cycle |

## Findings

| source | as written | input that shows it | evidently intended | confidence | as-written member | corrected member |
|---|---|---|---|---|---|---|
| index-authenticated.js:174 | `pingCount++` runs at line 174 after landing, and again at line 254 when a later call throws | `HEADLESS=false`, landing on `https://accounts.google.com/signin`, then `waitForNavigation` times out: one cycle raises the count from 0 to 2 | each cycle counts one ping, as `Ping #N` in the logs suggests | high; not executed | AuthPinger.CountsTwiceWhenLoginWaitTimesOut | AuthPinger.StepOnce |

The written cycle is `AuthPinger.Step`. The corrected `AuthPinger.StepOnce`
changes only the count (`AuthPinger.RecountChangesOnlyTheCount`).
`AuthPinger.RunOnce` proves that under it the count equals the number of
cycles.

## Left out

- Browser automation is out: puppeteer's launch options, pages, user agent,
  timeouts, `setCookie`, navigation, the 3 s and 5 s waits, `page.title()`,
  `page.evaluate` and `page.close()`. It is a foreign library. Its results
  are cycle inputs: the launch outcome, the landing, the thrown messages and
  the cookie jar.
- File reads and writes, directory creation, base64 decoding, and
  `JSON.parse`/`JSON.stringify` are library calls. They are parameters:
  `fileText`, `decodeBase64`, `parseJson`, `stringify` and the `WriteResult`
  of a save.
- `Cookies.LoadCookies`: the model does not cover JSON that parses to a
  value other than `null` or a cookie list. The code returns such a blob
  unchanged. `false` or `0` then acts like no cookies. `{}` or `5` makes
  `page.setCookie(...cookies)` throw, which the model can only show as an
  error before landing. A `null` blob is covered: reading its `length`
  throws, and the code falls back to the file.
- The HTTP server, `https.request` streaming and `new URL` parsing are I/O
  and library code. The request takes an already-parsed URL. Request method
  and headers of health requests are ignored, as in the code.
- Scheduling is out: `setInterval`, overlapping ticks, and the race on the
  browser singleton. These concern concurrency. Cycles are modelled strictly
  one after another (`AuthPinger.Run`, `PlainPinger.Replay`).
- `Date.now()`, `new Date().toISOString()` and `process.uptime()` are inputs.
  One cycle uses one timestamp for both its updates.
- The register is visible to the health endpoint between any two `await`s
  of a cycle. The model exposes one such state: the register during the
  login wait (`Outcome.loginWait`). The others are not exposed. During the
  3 s redirect wait the register is the previous cycle's. While
  `page.title()` or `page.cookies()` runs it already shows `HTTP <code>`.
  `AuthPinger.AuthRequiredOnlyWhenHeadless` is about the end of a cycle only.
- Signal handling, graceful shutdown and all console logging are out.
- JavaScript numbers are unbounded integers and exact reals here. The model
  has no loss of precision above 2^53, no `NaN` expiry date and no `-0`.
- `JsNumber.IsStrWhiteSpace` lists the ECMAScript white space and line
  terminators by code point. No Unicode database is consulted.
- `PlainPinger.Apply`: Node's ordering of `end`, `error` and `timeout`
  events is not modelled. Any sequence of events is accepted.

=== FILE: auth_pinger.dfy ===
/** One cycle of `pingIDXWorkspace` in index-authenticated.js, as a transition
    of the register `(pingCount, lastPingStatus, lastPingTime, browser)`.
    What the browser does is an input of the cycle: the outcome of a launch,
    where the page landed (or the error thrown before it did), the error a
    later browser call throws, and the cookies the page holds. */
module AuthPinger {
  import opened Results
  import opened Text
  import opened Cookies
  import opened StatusRegister

  /** An opaque handle for a launched browser process. */
  type BrowserId = nat

  /** The status register plus the module-level `browser` slot. */
  datatype Register = Register(status: Status, browser: Option<BrowserId>)

  const InitialRegister: Register := Register(Initial, None)

  /** `initBrowser()`: a held browser is reused and no launch happens; an empty
      slot takes the outcome of `puppeteer.launch`. */
  function InitBrowser(slot: Option<BrowserId>, launch: Result<BrowserId>): (r: Result<BrowserId>)
    ensures slot.Some? ==> r == Ok(slot.value)
    ensures slot.None? ==> r == launch
  {
    if slot.Some? then Ok(slot.value) else launch
  }

  /** The landing URL is Google's sign-in page or any login page: it
      mentions `accounts.google.com` or `login` anywhere. */
  predicate IsLoginUrl(url: string)
    ensures IsLoginUrl(url) <==>
      (exists i :: OccursAt(url, "accounts.google.com", i)) || (exists i :: OccursAt(url, "login", i))
  {
    Contains(url, "accounts.google.com") || Contains(url, "login")
  }

  /** The landing URL is the workspace itself: it mentions `idx.google.com`
      and nowhere mentions `login`. */
  predicate IsWorkspaceUrl(url: string)
    ensures IsWorkspaceUrl(url) <==>
      (exists i :: OccursAt(url, "idx.google.com", i)) && forall i :: !OccursAt(url, "login", i)
  {
    Contains(url, "idx.google.com") && !Contains(url, "login")
  }

  /** The error text suggests the browser process died: it mentions
      `closed` or `detached`. */
  predicate IsCrashMessage(message: string)
    ensures IsCrashMessage(message) <==>
      (exists i :: OccursAt(message, "closed", i)) || (exists i :: OccursAt(message, "detached", i))
  {
    Contains(message, "closed") || Contains(message, "detached")
  }

  /** How far the navigation got. `FailedBeforeLanding` is an error thrown
      before the count is raised: by `newPage`, `setUserAgent` or `setCookie`
      before the loaded cookies are checked (`pastCookieCheck` false), or by
      `goto` or `response.status()` after it (`pastCookieCheck` true). `Landed` carries the final URL and HTTP
      status, and the message of the first later browser call that throws
      (`waitForNavigation` or `page.cookies()` after a login redirect,
      `page.title()` or `page.cookies()` otherwise), if one does; a path that
      makes no such call ignores it. */
  datatype Landing =
    | FailedBeforeLanding(message: string, pastCookieCheck: bool)
    | Landed(url: string, code: int, laterError: Option<string>)

  /** Everything a cycle reads from outside: the launch outcome (used only when
      the slot is empty), the landing, the cookies the page holds when read,
      the cookies `loadCookies` returned, the clock in seconds and the ISO
      timestamp of the cycle. */
  datatype CycleInput = CycleInput(
    launch: Result<BrowserId>,
    landing: Landing,
    jar: seq<Cookie>,
    loaded: Option<seq<Cookie>>,
    clock: real,
    stamp: string)

  /** The register after the cycle, the cookie list written to the cookie
      file (if any), the two advisory expiry verdicts the cycle logs (on the
      loaded cookies with the default buffer, on the fresh cookies with none),
      and the status the register shows while a visible browser waits up to
      five minutes for a manual login, when the cycle waits for one. The
      health endpoint answers during that wait. */
  datatype Outcome = Outcome(
    reg: Register,
    saved: Option<seq<Cookie>>,
    loadedExpiring: Option<bool>,
    freshExpiring: Option<bool>,
    loginWait: Option<Status>)

  /** The `catch` block: count (unless `increment` is off), record the error,
      and drop the browser when the message looks like a crash. */
  function Catch(r: Register, message: string, stamp: string, increment: bool): (r': Register)
    ensures r'.status.pingCount == r.status.pingCount + (if increment then 1 else 0)
    ensures r'.status.lastPingStatus == ErrorStatus(message)
    ensures r'.status.lastPingTime == Some(stamp)
    ensures r'.browser == (if IsCrashMessage(message) then None else r.browser)
  {
    Register(
      Status(if increment then r.status.pingCount + 1 else r.status.pingCount, ErrorStatus(message), Some(stamp)),
      if IsCrashMessage(message) then None else r.browser)
  }

  /** The loaded cookies are checked (a non-null list only): the browser was
      acquired and the cycle got past `setCookie`. */
  predicate ChecksLoadedCookies(r: Register, input: CycleInput)
  {
    && input.loaded.Some?
    && InitBrowser(r.browser, input.launch).Ok?
    && (input.landing.Landed? || input.landing.pastCookieCheck)
  }

  /** The cycle; `recount` says whether an error thrown after the count was
      raised raises it again, as the source does. Every cycle stamps the
      time; the loaded cookies' verdict is logged exactly when they are
      checked; a visible browser on a login page waits with the register
      showing `AUTH_REQUIRED` and the raised count. */
  function Cycle(r: Register, headless: bool, input: CycleInput, recount: bool): (o: Outcome)
    ensures o.reg.status.lastPingTime == Some(input.stamp)
    ensures o.loadedExpiring.Some? <==> ChecksLoadedCookies(r, input)
    ensures o.loadedExpiring.Some? ==>
      o.loadedExpiring.value == AreCookiesExpiring(input.loaded, input.clock, DefaultBufferMinutes)
    ensures o.loginWait.Some? <==> !headless && LandedIn(r, input) && IsLoginUrl(input.landing.url)
    ensures o.loginWait.Some? ==>
      o.loginWait.value == Status(r.status.pingCount + 1, AuthRequired, Some(input.stamp))
  {
    var acquired := InitBrowser(r.browser, input.launch);
    if acquired.Err? then
      Outcome(Catch(r, acquired.message, input.stamp, true), None, None, None, None)
    else
      var held := r.(browser := Some(acquired.value));
      var advisory :=
        if input.loaded.Some? then Some(AreCookiesExpiring(input.loaded, input.clock, DefaultBufferMinutes)) else None;
      match input.landing
      case FailedBeforeLanding(message, pastCookieCheck) =>
        Outcome(Catch(held, message, input.stamp, true), None, if pastCookieCheck then advisory else None, None, None)
      case Landed(url, code, later) =>
        var counted := held.(status := Status(held.status.pingCount + 1, held.status.lastPingStatus, Some(input.stamp)));
        if IsLoginUrl(url) then
          var auth := counted.(status := counted.status.(lastPingStatus := AuthRequired));
          if headless then
            Outcome(auth, None, advisory, None, None)
          else if later.Some? then
            Outcome(Catch(auth, later.value, input.stamp, recount), None, advisory, None, Some(auth.status))
          else
            Outcome(auth.(status := auth.status.(lastPingStatus := LoginSuccess)), Some(input.jar), advisory, None,
                    Some(auth.status))
        else
          var http := counted.(status := counted.status.(lastPingStatus := HttpStatus(code)));
          if later.Some? then
            Outcome(Catch(http, later.value, input.stamp, recount), None, advisory, None, None)
          else if IsWorkspaceUrl(url) then
            var verdict := AreCookiesExpiring(Some(input.jar), input.clock, 0.0);
            Outcome(http, Some(input.jar), advisory, Some(verdict), None)
          else
            Outcome(http, None, advisory, None, None)
  }

  /** The cycle got past the launch and the navigation: line 174 raised the count. */
  predicate LandedIn(r: Register, input: CycleInput)
  {
    InitBrowser(r.browser, input.launch).Ok? && input.landing.Landed?
  }

  /** The message of the error the cycle throws, if it throws one. */
  function Thrown(r: Register, headless: bool, input: CycleInput): Option<string>
  {
    var acquired := InitBrowser(r.browser, input.launch);
    if acquired.Err? then Some(acquired.message)
    else match input.landing
      case FailedBeforeLanding(message, _) => Some(message)
      case Landed(url, _, later) => if IsLoginUrl(url) && headless then None else later
  }

  /** `pingIDXWorkspace()` as written. Every cycle stamps the time; the
      count rises by one for a cycle that throws before landing or does not
      throw at all, and by two for one that throws after landing. */
  function Step(r: Register, headless: bool, input: CycleInput): (o: Outcome)
    ensures o.reg.status.lastPingTime == Some(input.stamp)
    ensures !LandedIn(r, input) ==> o.reg.status.pingCount == r.status.pingCount + 1
    ensures LandedIn(r, input) && Thrown(r, headless, input).None? ==> o.reg.status.pingCount == r.status.pingCount + 1
    ensures LandedIn(r, input) && Thrown(r, headless, input).Some? ==> o.reg.status.pingCount == r.status.pingCount + 2
  {
    Cycle(r, headless, input, true)
  }

  /** An error is recorded as `ERROR: <message>` and nothing is saved. */
  lemma StepRecordsError(r: Register, headless: bool, input: CycleInput)
    requires Thrown(r, headless, input).Some?
    ensures Step(r, headless, input).reg.status.lastPingStatus == ErrorStatus(Thrown(r, headless, input).value)
    ensures Step(r, headless, input).saved.None?
  {
  }

  /** A landing on a login page records `AUTH_REQUIRED` and saves nothing in
      headless mode; with a visible browser a completed login saves the
      page's cookies and records `LOGIN_SUCCESS`. */
  lemma StepOnLoginPage(r: Register, headless: bool, input: CycleInput)
    requires LandedIn(r, input) && Thrown(r, headless, input).None?
    requires IsLoginUrl(input.landing.url)
    ensures headless ==>
      Step(r, headless, input).reg.status.lastPingStatus == AuthRequired && Step(r, headless, input).saved.None?
    ensures !headless ==>
      Step(r, headless, input).reg.status.lastPingStatus == LoginSuccess && Step(r, headless, input).saved == Some(input.jar)
  {
  }

  /** Any other landing records `HTTP <code>` and saves the page's cookies
      exactly when the URL is on `idx.google.com`; the fresh-cookie verdict
      is logged beside the save and never withholds it. */
  lemma StepOnOtherPage(r: Register, headless: bool, input: CycleInput)
    requires LandedIn(r, input) && Thrown(r, headless, input).None?
    requires !IsLoginUrl(input.landing.url)
    ensures Step(r, headless, input).reg.status.lastPingStatus == HttpStatus(input.landing.code)
    ensures Step(r, headless, input).saved.Some? <==> Contains(input.landing.url, "idx.google.com")
    ensures Step(r, headless, input).saved.Some? ==> Step(r, headless, input).saved == Some(input.jar)
    ensures Step(r, headless, input).freshExpiring.Some? <==> Step(r, headless, input).saved.Some?
  {
  }

  /** The browser slot is emptied exactly by a crash-like error; otherwise it
      holds the browser the cycle used, the old one when there was one. */
  lemma StepBrowserSlot(r: Register, headless: bool, input: CycleInput)
    ensures Thrown(r, headless, input).Some? && IsCrashMessage(Thrown(r, headless, input).value) ==>
      Step(r, headless, input).reg.browser.None?
    ensures !(Thrown(r, headless, input).Some? && IsCrashMessage(Thrown(r, headless, input).value)) ==>
      Step(r, headless, input).reg.browser
        == (if r.browser.Some? then r.browser else if input.launch.Ok? then Some(input.launch.value) else None)
  {
  }

  /** Counting an error after landing a second time changes the count and
      nothing else: without the recount the cycle ends one past the old count. */
  lemma RecountChangesOnlyTheCount(r: Register, headless: bool, input: CycleInput)
    ensures
      var twice := Cycle(r, headless, input, true);
      Cycle(r, headless, input, false) == twice.(reg := twice.reg.(status := twice.reg.status.(pingCount := r.status.pingCount + 1)))
  {
    // One branch per path of the cycle: each solver query stays small.
    if InitBrowser(r.browser, input.launch).Ok? && input.landing.Landed? {
      if IsLoginUrl(input.landing.url) {
        if headless {
        } else if input.landing.laterError.Some? {
        } else {
        }
      } else if input.landing.laterError.Some? {
      } else if IsWorkspaceUrl(input.landing.url) {
      } else {
      }
    }
  }

  /** The cycle with the evident intent: an error after landing is recorded
      but not counted a second time. */
  function StepOnce(r: Register, headless: bool, input: CycleInput): (o: Outcome)
    ensures o.reg.status.pingCount == r.status.pingCount + 1
    ensures o.reg.status.lastPingStatus == Step(r, headless, input).reg.status.lastPingStatus
    ensures o.reg.status.lastPingTime == Some(input.stamp)
    ensures o.reg.browser == Step(r, headless, input).reg.browser
    ensures o.saved == Step(r, headless, input).saved
    ensures o.loginWait == Step(r, headless, input).loginWait
  {
    RecountChangesOnlyTheCount(r, headless, input);
    Cycle(r, headless, input, false)
  }

  /** A visible-browser cycle redirected to Google sign-in whose wait for
      the login times out (for instance with the message `Navigation timeout
      of 300000 ms exceeded`) is counted twice. */
  lemma CountsTwiceWhenLoginWaitTimesOut(input: CycleInput, scheme: string, path: string, timeout: string)
    requires input.launch == Ok(1)
    requires input.landing == Landed(scheme + "accounts.google.com" + path, 200, Some(timeout))
    ensures Step(InitialRegister, false, input).reg.status.pingCount == 2
  {
    ContainsPlaced(scheme, "accounts.google.com", path);
    assert Thrown(InitialRegister, false, input) == Some(timeout);
  }

  /** Cycles in sequence with the corrected step. */
  function RunOnce(r: Register, headless: bool, inputs: seq<CycleInput>): (r': Register)
    ensures r'.status.pingCount == r.status.pingCount + |inputs|
    decreases |inputs|
  {
    if |inputs| == 0 then r
    else RunOnce(StepOnce(r, headless, inputs[0]).reg, headless, inputs[1..])
  }

  /** Cycles in sequence as written: the count runs ahead of the number of
      cycles, by up to one per cycle. */
  function Run(r: Register, headless: bool, inputs: seq<CycleInput>): (r': Register)
    ensures r.status.pingCount + |inputs| <= r'.status.pingCount <= r.status.pingCount + 2 * |inputs|
    decreases |inputs|
  {
    if |inputs| == 0 then r
    else Run(Step(r, headless, inputs[0]).reg, headless, inputs[1..])
  }

  /** `AUTH_REQUIRED` survives a cycle exactly when a headless browser landed
      on a login page; a visible browser always moves on to `LOGIN_SUCCESS`
      or an error. */
  lemma AuthRequiredOnlyWhenHeadless(r: Register, headless: bool, input: CycleInput)
    ensures Step(r, headless, input).reg.status.lastPingStatus == AuthRequired
       <==> headless && LandedIn(r, input) && IsLoginUrl(input.landing.url)
  {
    match Thrown(r, headless, input)
    case Some(m) =>
      StepRecordsError(r, headless, input);
      StatusKindsDistinct(0, m);
    case None =>
      assert LandedIn(r, input);
      if IsLoginUrl(input.landing.url) {
        StepOnLoginPage(r, headless, input);
      } else {
        StepOnOtherPage(r, headless, input);
        StatusKindsDistinct(input.landing.code, "");
      }
  }

  /** The expiry verdicts are advisory: the loaded cookies and the clock
      change neither the register nor what is saved. */
  lemma ExpiryCheckIsAdvisory(r: Register, headless: bool, input: CycleInput,
                              loaded: Option<seq<Cookie>>, clock: real)
    ensures Step(r, headless, input.(loaded := loaded, clock := clock)).reg == Step(r, headless, input).reg
    ensures Step(r, headless, input.(loaded := loaded, clock := clock)).saved == Step(r, headless, input).saved
  {
    // One branch per path of the cycle: each solver query stays small.
    if InitBrowser(r.browser, input.launch).Ok? && input.landing.Landed? {
      if IsLoginUrl(input.landing.url) {
        if headless {
        } else if input.landing.laterError.Some? {
        } else {
        }
      } else if input.landing.laterError.Some? {
      } else {
      }
    }
  }

  /** Fresh cookies that already look expired are saved all the same. */
  lemma ExpiringFreshCookiesAreStillSaved(r: Register, headless: bool, input: CycleInput)
    requires LandedIn(r, input) && input.landing.laterError.None?
    requires !IsLoginUrl(input.landing.url) && Contains(input.landing.url, "idx.google.com")
    requires AreCookiesExpiring(Some(input.jar), input.clock, 0.0)
    ensures Step(r, headless, input).saved == Some(input.jar)
    ensures Step(r, headless, input).freshExpiring == Some(true)
  {
  }

  /** A browser kept by one cycle is the one the next cycle uses, whatever a
      launch would have produced. */
  lemma BrowserReusedAcrossCycles(r: Register, headless: bool, first: CycleInput, next: CycleInput)
    requires Step(r, headless, first).reg.browser.Some?
    ensures InitBrowser(Step(r, headless, first).reg.browser, next.launch)
         == Ok(Step(r, headless, first).reg.browser.value)
  {
  }

  /** A crash-like error empties the slot, so the next cycle launches anew. */
  lemma CrashForcesRelaunch(r: Register, headless: bool, first: CycleInput, next: CycleInput)
    requires Thrown(r, headless, first).Some? && IsCrashMessage(Thrown(r, headless, first).value)
    ensures InitBrowser(Step(r, headless, first).reg.browser, next.launch) == next.launch
  {
  }

  /** A headless cycle landing on the workspace with status 200 records
      `HTTP 200`, counts once and saves the page's cookies. */
  lemma WorkspaceLandingExample(r: Register, input: CycleInput)
    requires r.browser.Some?
    requires input.landing.Landed? && input.landing.code == 200 && input.landing.laterError.None?
    requires IsWorkspaceUrl(input.landing.url) && !IsLoginUrl(input.landing.url)
    ensures Step(r, true, input).reg.status == Status(r.status.pingCount + 1, "HTTP 200", Some(input.stamp))
    ensures Step(r, true, input).saved == Some(input.jar)
  {
    StepOnOtherPage(r, true, input);
    HttpStatusOk(input.landing.code);
  }
}

=== FILE: config.dfy ===
/** The configuration both pingers assemble once from the environment at
    start-up: `value || default` for text, `parseInt(value) || default` for
    numbers, and the `HEADLESS` switch. */
module Config {
  import opened Results
  import opened JsNumber

  /** The process environment: variable name to value. */
  type Env = map<string, string>

  const DefaultWorkspaceUrl: string := "https://your-workspace.idx.google.com"
  const DefaultHealthCheckPort: int := 8080
  const DefaultCookiesFile: string := "/data/cookies.json"
  /** Two minutes for the authenticated pinger, five for the plain one. */
  const AuthDefaultIntervalMs: int := 2 * 60 * 1000
  const PlainDefaultIntervalMs: int := 5 * 60 * 1000

  /** `process.env[key]`: `None` when the variable is not defined. */
  function Lookup(env: Env, key: string): Option<string>
  {
    if key in env then Some(env[key]) else None
  }

  /** The value is truthy: defined and not the empty string. */
  predicate IsSet(v: Option<string>)
  {
    v.Some? && v.value != ""
  }

  /** `value || fallback` for a text setting. */
  function TextOr(v: Option<string>, fallback: string): (r: string)
    ensures IsSet(v) ==> r == v.value
    ensures !IsSet(v) ==> r == fallback
    ensures r == "" ==> fallback == ""
  {
    if IsSet(v) then v.value else fallback
  }

  /** `parseInt(value) || fallback`: a missing value (read as `parseInt(undefined)`,
      which is `NaN`), an unparseable one and one that reads as zero all fall
      back; any other reading is kept, negative ones included. */
  function IntOr(v: Option<string>, fallback: int): (r: int)
    ensures v.None? ==> r == fallback
    ensures v.Some? && ParseInt(v.value).None? ==> r == fallback
    ensures v.Some? && ParseInt(v.value) == Some(0) ==> r == fallback
    ensures v.Some? && ParseInt(v.value).Some? && ParseInt(v.value).value != 0 ==> r == ParseInt(v.value).value
    ensures fallback != 0 ==> r != 0
  {
    if v.None? then fallback
    else
      var n := ParseInt(v.value);
      if n.None? || n.value == 0 then fallback else n.value
  }

  /** `process.env.HEADLESS !== 'false'`: only the exact text `false` turns headless off. */
  function HeadlessFrom(v: Option<string>): (r: bool)
    ensures !r <==> v == Some("false")
  {
    v != Some("false")
  }

  datatype AuthConfig = AuthConfig(
    workspaceUrl: string,
    pingIntervalMs: int,
    healthCheckPort: int,
    cookiesFile: string,
    headless: bool)

  /** The `CONFIG` object of the authenticated pinger. */
  function AuthConfigFrom(env: Env): (c: AuthConfig)
    ensures c.workspaceUrl == TextOr(Lookup(env, "IDX_WORKSPACE_URL"), DefaultWorkspaceUrl)
    ensures c.pingIntervalMs == IntOr(Lookup(env, "PING_INTERVAL_MS"), AuthDefaultIntervalMs)
    ensures c.healthCheckPort == IntOr(Lookup(env, "PORT"), DefaultHealthCheckPort)
    ensures c.cookiesFile == TextOr(Lookup(env, "COOKIES_FILE"), DefaultCookiesFile)
    ensures c.headless <==> !("HEADLESS" in env && env["HEADLESS"] == "false")
    ensures c.pingIntervalMs != 0 && c.healthCheckPort != 0 && c.workspaceUrl != "" && c.cookiesFile != ""
  {
    AuthConfig(
      TextOr(Lookup(env, "IDX_WORKSPACE_URL"), DefaultWorkspaceUrl),
      IntOr(Lookup(env, "PING_INTERVAL_MS"), AuthDefaultIntervalMs),
      IntOr(Lookup(env, "PORT"), DefaultHealthCheckPort),
      TextOr(Lookup(env, "COOKIES_FILE"), DefaultCookiesFile),
      HeadlessFrom(Lookup(env, "HEADLESS")))
  }

  datatype PlainConfig = PlainConfig(
    workspaceUrl: string,
    pingIntervalMs: int,
    sessionCookie: string,
    healthCheckPort: int)

  /** The `CONFIG` object of the plain pinger. */
  function PlainConfigFrom(env: Env): (c: PlainConfig)
    ensures c.workspaceUrl == TextOr(Lookup(env, "IDX_WORKSPACE_URL"), DefaultWorkspaceUrl)
    ensures c.pingIntervalMs == IntOr(Lookup(env, "PING_INTERVAL_MS"), PlainDefaultIntervalMs)
    ensures c.sessionCookie == TextOr(Lookup(env, "IDX_SESSION_COOKIE"), "")
    ensures c.healthCheckPort == IntOr(Lookup(env, "PORT"), DefaultHealthCheckPort)
    ensures c.pingIntervalMs != 0 && c.workspaceUrl != ""
  {
    PlainConfig(
      TextOr(Lookup(env, "IDX_WORKSPACE_URL"), DefaultWorkspaceUrl),
      IntOr(Lookup(env, "PING_INTERVAL_MS"), PlainDefaultIntervalMs),
      TextOr(Lookup(env, "IDX_SESSION_COOKIE"), ""),
      IntOr(Lookup(env, "PORT"), DefaultHealthCheckPort))
  }

  /** The plain pinger's interval is 300000 ms when `PING_INTERVAL_MS` is
      missing, unparseable or zero. */
  lemma PlainIntervalDefaults()
    ensures PlainConfigFrom(map[]).pingIntervalMs == 300000
    ensures PlainConfigFrom(map["PING_INTERVAL_MS" := "abc"]).pingIntervalMs == 300000
    ensures PlainConfigFrom(map["PING_INTERVAL_MS" := "0"]).pingIntervalMs == 300000
  {
    ParseIntRejectsNonNumbers();
    assert IntToDecimal(0) == "0";
    ParseIntOfDecimal(0);
    assert IntOr(Some("0"), PlainDefaultIntervalMs) == 300000;
  }

  /** A negative interval is not rejected. */
  lemma NegativeIntervalKept()
    ensures PlainConfigFrom(map["PING_INTERVAL_MS" := "-5"]).pingIntervalMs == -5
  {
    var text := IntToDecimal(-5);
    assert text == "-5" by {
      assert NatToDecimal(5) == "5";
    }
    ParseIntOfDecimal(-5);
    assert IntOr(Some(text), PlainDefaultIntervalMs) == -5;
  }

  /** Only the exact text `false` selects a visible browser. */
  lemma HeadlessExamples()
    ensures !AuthConfigFrom(map["HEADLESS" := "false"]).headless
    ensures AuthConfigFrom(map["HEADLESS" := "FALSE"]).headless
    ensures AuthConfigFrom(map["HEADLESS" := "0"]).headless
    ensures AuthConfigFrom(map[]).headless
  {
  }
}

=== FILE: cookies.dfy ===
/** The cookie store and the critical-cookie expiry check of the authenticated
    pinger (index-authenticated.js). Cookie times are seconds since the epoch,
    as exact reals. */
module Cookies {
  import opened Results
  import opened Text
  import opened Config

  /** A browser cookie record; the attributes the daemon never reads (path,
      httpOnly, secure, sameSite, ...) are not modelled. `expirationDate` is
      absent for a session cookie. */
  datatype Cookie = Cookie(name: string, value: string, domain: string, expirationDate: Option<real>)

  /** The buffer `areCookiesExpiring` uses when its caller gives none. */
  const DefaultBufferMinutes: real := 10.0

  /** A Google session cookie whose state stands for the state of the login:
      its name mentions `SIDTS` or `SIDCC`, or is one of the two `PSID` names. */
  predicate IsCritical(c: Cookie)
    ensures IsCritical(c) <==>
      (exists i :: OccursAt(c.name, "SIDTS", i)) || (exists i :: OccursAt(c.name, "SIDCC", i))
      || c.name == "__Secure-1PSID" || c.name == "__Secure-3PSID"
  {
    Contains(c.name, "SIDTS") || Contains(c.name, "SIDCC")
    || c.name == "__Secure-1PSID" || c.name == "__Secure-3PSID"
  }

  /** `cookie.expirationDate` is truthy: present and not zero. */
  predicate HasExpiry(c: Cookie)
  {
    c.expirationDate.Some? && c.expirationDate.value != 0.0
  }

  /** The cookie carries an expiry that is less than `bufferSeconds` away from `now`. */
  predicate ExpiresWithin(c: Cookie, now: real, bufferSeconds: real)
  {
    HasExpiry(c) && c.expirationDate.value - now < bufferSeconds
  }

  ghost predicate HasCritical(cs: seq<Cookie>)
  {
    exists c :: c in cs && IsCritical(c)
  }

  /** `cookies.filter(isCritical)`: the critical cookies, each as often as it
      occurs in `cs`; `CriticalOfConcat` shows the original order is kept. */
  function Critical(cs: seq<Cookie>): (r: seq<Cookie>)
    ensures |r| <= |cs|
    ensures forall c :: c in r <==> c in cs && IsCritical(c)
    ensures forall c :: multiset(r)[c] == if IsCritical(c) then multiset(cs)[c] else 0
  {
    if |cs| == 0 then []
    else
      assert cs == [cs[0]] + cs[1..];
      if IsCritical(cs[0]) then [cs[0]] + Critical(cs[1..])
      else Critical(cs[1..])
  }

  /** Filtering distributes over concatenation: the critical cookies of
      `a + b` are those of `a` followed by those of `b`, so the filter keeps
      the relative order of the cookies it keeps. */
  lemma {:induction false} CriticalOfConcat(a: seq<Cookie>, b: seq<Cookie>)
    ensures Critical(a + b) == Critical(a) + Critical(b)
  {
    if |a| == 0 {
      assert a + b == b;
    } else {
      assert (a + b)[0] == a[0];
      assert (a + b)[1..] == a[1..] + b;
      CriticalOfConcat(a[1..], b);
    }
  }

  /** The scan over the critical cookies: does one of them expire within the buffer? */
  function AnyExpiresWithin(cs: seq<Cookie>, now: real, bufferSeconds: real): (r: bool)
    ensures r <==> exists c :: c in cs && ExpiresWithin(c, now, bufferSeconds)
  {
    if |cs| == 0 then false
    else if ExpiresWithin(cs[0], now, bufferSeconds) then true
    else AnyExpiresWithin(cs[1..], now, bufferSeconds)
  }

  /** `areCookiesExpiring(cookies, bufferMinutes)` at clock `now`: a missing or
      empty list, or one without any critical cookie, counts as expiring;
      otherwise the list is expiring exactly when some critical cookie with a
      truthy expiry expires less than `bufferMinutes` minutes from now.
      Critical cookies without an expiry never make it expiring. */
  function AreCookiesExpiring(cookies: Option<seq<Cookie>>, now: real, bufferMinutes: real): (r: bool)
    ensures cookies.None? ==> r
    ensures cookies.Some? && |cookies.value| == 0 ==> r
    ensures cookies.Some? && !HasCritical(cookies.value) ==> r
    ensures cookies.Some? && HasCritical(cookies.value) ==>
      (r <==> exists c :: c in cookies.value && IsCritical(c) && ExpiresWithin(c, now, bufferMinutes * 60.0))
  {
    if cookies.None? || |cookies.value| == 0 then true
    else
      var critical := Critical(cookies.value);
      if |critical| == 0 then
        true
      else
        assert critical[0] in cookies.value;
        AnyExpiresWithin(critical, now, bufferMinutes * 60.0)
  }

  /** The verdict depends on the critical cookies alone: adding, removing or
      reordering non-critical cookies never changes it. */
  lemma DependsOnlyOnCriticalCookies(a: seq<Cookie>, b: seq<Cookie>, now: real, bufferMinutes: real)
    requires forall c :: c in a && IsCritical(c) <==> c in b && IsCritical(c)
    ensures AreCookiesExpiring(Some(a), now, bufferMinutes) == AreCookiesExpiring(Some(b), now, bufferMinutes)
  {
  }

  /** The pointwise form: a non-critical cookie inserted anywhere changes nothing. */
  lemma NonCriticalCookieIsIgnored(a: seq<Cookie>, b: seq<Cookie>, extra: Cookie, now: real, bufferMinutes: real)
    requires !IsCritical(extra)
    ensures AreCookiesExpiring(Some(a + [extra] + b), now, bufferMinutes)
         == AreCookiesExpiring(Some(a + b), now, bufferMinutes)
  {
    DependsOnlyOnCriticalCookies(a + [extra] + b, a + b, now, bufferMinutes);
  }

  /** When critical cookies are present but none has an expiry, the list is
      not expiring: session cookies are never flagged. */
  lemma SessionCriticalCookiesAreNotExpiring(cs: seq<Cookie>, now: real, bufferMinutes: real)
    requires HasCritical(cs)
    requires forall c :: c in cs && IsCritical(c) ==> !HasExpiry(c)
    ensures !AreCookiesExpiring(Some(cs), now, bufferMinutes)
  {
  }

  /** A wider buffer flags at least as much. */
  lemma WiderBufferFlagsMore(cookies: Option<seq<Cookie>>, now: real, b1: real, b2: real)
    requires b1 <= b2
    requires AreCookiesExpiring(cookies, now, b1)
    ensures AreCookiesExpiring(cookies, now, b2)
  {
  }

  /** A list that is expiring stays expiring as time passes. */
  lemma LaterClockFlagsMore(cookies: Option<seq<Cookie>>, t1: real, t2: real, bufferMinutes: real)
    requires t1 <= t2
    requires AreCookiesExpiring(cookies, t1, bufferMinutes)
    ensures AreCookiesExpiring(cookies, t2, bufferMinutes)
  {
  }

  /** A critical cookie 5 seconds from expiry is flagged with the default
      10-minute buffer; one an hour away is not. */
  lemma ExpiryExamples(now: real)
    requires now > 0.0
    ensures AreCookiesExpiring(Some([Cookie("__Secure-1PSID", "x", ".google.com", Some(now + 5.0))]), now, DefaultBufferMinutes)
    ensures !AreCookiesExpiring(Some([Cookie("__Secure-1PSID", "x", ".google.com", Some(now + 3600.0))]), now, DefaultBufferMinutes)
  {
    assert IsCritical(Cookie("__Secure-1PSID", "x", ".google.com", Some(now + 5.0)));
    assert IsCritical(Cookie("__Secure-1PSID", "x", ".google.com", Some(now + 3600.0)));
  }

  /** A cookie named like `__Secure-1PSIDTS` is critical by containment. */
  lemma CriticalByContainment()
    ensures IsCritical(Cookie("__Secure-1PSIDTS", "v", ".google.com", None))
    ensures !IsCritical(Cookie("NID", "v", ".google.com", None))
  {
    assert OccursAt("__Secure-1PSIDTS", "SIDTS", 11);
  }

  /** The base64 environment blob is set and its decoded text parses as a cookie list. */
  predicate BlobParses(envBlob: Option<string>, decodeBase64: string -> string,
                       parseJson: string -> Option<seq<Cookie>>)
  {
    IsSet(envBlob) && parseJson(decodeBase64(envBlob.value)).Some?
  }

  /** `loadCookies()`. `envBlob` is `GOOGLE_COOKIES_BASE64`, `fileText` the
      content of the cookie file (`None` when it cannot be read). Base64
      decoding never fails; `parseJson` is `None` where `JSON.parse` throws
      and where the blob parses to `null`, whose `length` the code reads
      before returning it, so that the error sends it to the file instead.
      A parseable blob wins; otherwise the file is parsed; a missing or
      unparseable file means no cookies rather than an error. */
  function LoadCookies(envBlob: Option<string>, decodeBase64: string -> string,
                       parseJson: string -> Option<seq<Cookie>>, fileText: Option<string>): (r: Option<seq<Cookie>>)
    ensures BlobParses(envBlob, decodeBase64, parseJson) ==> r == parseJson(decodeBase64(envBlob.value))
    ensures !BlobParses(envBlob, decodeBase64, parseJson) && fileText.Some? ==> r == parseJson(fileText.value)
    ensures r.None? <==>
      !BlobParses(envBlob, decodeBase64, parseJson) && (fileText.None? || parseJson(fileText.value).None?)
  {
    if IsSet(envBlob) && parseJson(decodeBase64(envBlob.value)).Some? then
      parseJson(decodeBase64(envBlob.value))
    else if fileText.Some? then
      parseJson(fileText.value)
    else
      None
  }

  /** How the file system handled a save. `NotOpened`: `mkdir` or the open
      failed, and the file is untouched. `Interrupted(kept)`: the open
      truncated the file and the write failed after `kept` characters (a full
      disk, say). */
  datatype WriteResult = Written | NotOpened | Interrupted(kept: nat)

  /** `saveCookies(cookies)`: the cookie file's content afterwards. Errors are
      swallowed; an interrupted write leaves a prefix of the JSON text. */
  function SaveCookies(fileText: Option<string>, stringify: seq<Cookie> -> string,
                       cookies: seq<Cookie>, write: WriteResult): (r: Option<string>)
    ensures write.Written? ==> r == Some(stringify(cookies))
    ensures write.NotOpened? ==> r == fileText
    ensures write.Interrupted? ==>
      r.Some? && IsPrefix(r.value, stringify(cookies)) && |r.value| <= write.kept
  {
    match write
    case Written => Some(stringify(cookies))
    case NotOpened => fileText
    case Interrupted(kept) =>
      var text := stringify(cookies);
      Some(text[..if kept < |text| then kept else |text|])
  }

  /** Without a usable environment blob, a successful save followed by a load
      returns the saved list unchanged, in order, provided the JSON layer
      reads back what it writes. */
  lemma SaveThenLoadRoundTrip(envBlob: Option<string>, decodeBase64: string -> string,
                              parseJson: string -> Option<seq<Cookie>>, stringify: seq<Cookie> -> string,
                              fileText: Option<string>, cookies: seq<Cookie>)
    requires !BlobParses(envBlob, decodeBase64, parseJson)
    requires parseJson(stringify(cookies)) == Some(cookies)
    ensures LoadCookies(envBlob, decodeBase64, parseJson, SaveCookies(fileText, stringify, cookies, Written)) == Some(cookies)
  {
  }

  /** An interrupted save destroys the previous cookie file: without a usable
      environment blob, the next load parses a prefix of the new JSON text
      instead, and a JSON layer that rejects truncated text yields no cookies. */
  lemma InterruptedSaveLosesCookies(envBlob: Option<string>, decodeBase64: string -> string,
                                    parseJson: string -> Option<seq<Cookie>>, stringify: seq<Cookie> -> string,
                                    fileText: Option<string>, cookies: seq<Cookie>, kept: nat)
    requires !BlobParses(envBlob, decodeBase64, parseJson)
    requires kept < |stringify(cookies)|
    requires forall p :: IsPrefix(p, stringify(cookies)) && |p| < |stringify(cookies)| ==> parseJson(p).None?
    ensures LoadCookies(envBlob, decodeBase64, parseJson, SaveCookies(fileText, stringify, cookies, Interrupted(kept))).None?
  {
    var text := SaveCookies(fileText, stringify, cookies, Interrupted(kept)).value;
    assert IsPrefix(text, stringify(cookies)) && |text| < |stringify(cookies)|;
  }

  /** A parseable environment blob hides every saved refresh: whatever the
      file holds, loading returns the blob's cookies. */
  lemma BlobShadowsCookieFile(envBlob: Option<string>, decodeBase64: string -> string,
                              parseJson: string -> Option<seq<Cookie>>, f1: Option<string>, f2: Option<string>)
    requires BlobParses(envBlob, decodeBase64, parseJson)
    ensures LoadCookies(envBlob, decodeBase64, parseJson, f1) == LoadCookies(envBlob, decodeBase64, parseJson, f2)
  {
  }
}

=== FILE: health.dfy ===
/** The health-check handlers of both pingers: the two routes they serve and
    the JSON body they derive from the status register and the configuration. */
module Health {
  import opened Results
  import opened StatusRegister
  import opened Config
  import AuthPinger

  /** The JSON body. `headless` is reported by the authenticated pinger only;
      `uptime` is the process uptime in seconds, an input. */
  datatype Body = Body(
    status: string,
    pingCount: nat,
    lastPingStatus: string,
    lastPingTime: Option<string>,
    workspace: string,
    intervalMinutes: real,
    headless: Option<bool>,
    uptime: real)

  /** A 200 JSON response, or a 404 with a plain-text body. */
  datatype Response = Json(body: Body) | NotFound(text: string)

  const NotFoundText: string := "Not Found"

  function Code(resp: Response): (code: int)
    ensures code == 200 || code == 404
    ensures code == 200 <==> resp.Json?
  {
    if resp.Json? then 200 else 404
  }

  /** `req.url` is exactly `/` or `/health`; a query string or a trailing
      slash makes it another path. */
  predicate IsHealthRoute(url: string)
  {
    url == "/health" || url == "/"
  }

  /** The authenticated pinger's handler: `auth_required` while the last
      ping needed a login, `running` otherwise (errors included). */
  function AuthRespond(url: string, s: Status, cfg: AuthConfig, uptime: real): (resp: Response)
    ensures resp.Json? <==> IsHealthRoute(url)
    ensures !IsHealthRoute(url) ==> resp == NotFound(NotFoundText)
    ensures resp.Json? ==> (resp.body.status == "auth_required" <==> s.lastPingStatus == AuthRequired)
    ensures resp.Json? ==> (resp.body.status == "running" <==> s.lastPingStatus != AuthRequired)
    ensures resp.Json? ==>
      && resp.body.pingCount == s.pingCount
      && resp.body.lastPingStatus == s.lastPingStatus
      && resp.body.lastPingTime == s.lastPingTime
      && resp.body.workspace == cfg.workspaceUrl
      && resp.body.intervalMinutes * 60000.0 == cfg.pingIntervalMs as real
      && resp.body.headless == Some(cfg.headless)
      && resp.body.uptime == uptime
  {
    if IsHealthRoute(url) then
      Json(Body(
        if s.lastPingStatus == AuthRequired then "auth_required" else "running",
        s.pingCount, s.lastPingStatus, s.lastPingTime,
        cfg.workspaceUrl, cfg.pingIntervalMs as real / 60000.0, Some(cfg.headless), uptime))
    else
      NotFound(NotFoundText)
  }

  /** The plain pinger's handler: always `running`, and no `headless` field. */
  function PlainRespond(url: string, s: Status, cfg: PlainConfig, uptime: real): (resp: Response)
    ensures resp.Json? <==> IsHealthRoute(url)
    ensures !IsHealthRoute(url) ==> resp == NotFound(NotFoundText)
    ensures resp.Json? ==>
      && resp.body.status == "running"
      && resp.body.pingCount == s.pingCount
      && resp.body.lastPingStatus == s.lastPingStatus
      && resp.body.lastPingTime == s.lastPingTime
      && resp.body.workspace == cfg.workspaceUrl
      && resp.body.intervalMinutes * 60000.0 == cfg.pingIntervalMs as real
      && resp.body.headless.None?
      && resp.body.uptime == uptime
  {
    if IsHealthRoute(url) then
      Json(Body("running", s.pingCount, s.lastPingStatus, s.lastPingTime,
                cfg.workspaceUrl, cfg.pingIntervalMs as real / 60000.0, None, uptime))
    else
      NotFound(NotFoundText)
  }

  /** Before the first ping both handlers report a running daemon that has
      never pinged. */
  lemma HealthBeforeFirstPing(auth: AuthConfig, plain: PlainConfig, uptime: real)
    ensures AuthRespond("/health", Initial, auth, uptime).body.status == "running"
    ensures AuthRespond("/health", Initial, auth, uptime).body.pingCount == 0
    ensures AuthRespond("/health", Initial, auth, uptime).body.lastPingStatus == "never pinged"
    ensures AuthRespond("/health", Initial, auth, uptime).body.lastPingTime.None?
    ensures PlainRespond("/", Initial, plain, uptime).body.pingCount == 0
  {
  }

  /** The two handlers agree on everything but the `status` they report
      after a login redirect and the `headless` field. */
  lemma HandlersAgree(url: string, s: Status, auth: AuthConfig, plain: PlainConfig, uptime: real)
    requires auth.workspaceUrl == plain.workspaceUrl && auth.pingIntervalMs == plain.pingIntervalMs
    requires s.lastPingStatus != AuthRequired
    ensures AuthRespond(url, s, auth, uptime).NotFound? == PlainRespond(url, s, plain, uptime).NotFound?
    ensures AuthRespond(url, s, auth, uptime).Json? ==>
      AuthRespond(url, s, auth, uptime).body.(headless := None) == PlainRespond(url, s, plain, uptime).body
  {
  }

  /** After a cycle, the authenticated handler reports `auth_required`
      exactly when a headless browser landed on a login page. */
  lemma ReportsAuthRequiredAfterCycle(r: AuthPinger.Register, cfg: AuthConfig, input: AuthPinger.CycleInput, uptime: real)
    ensures
      var after := AuthPinger.Step(r, cfg.headless, input).reg.status;
      AuthRespond("/health", after, cfg, uptime).body.status == "auth_required"
      <==> cfg.headless && AuthPinger.LandedIn(r, input) && AuthPinger.IsLoginUrl(input.landing.url)
  {
    AuthPinger.AuthRequiredOnlyWhenHeadless(r, cfg.headless, input);
  }

  /** While a visible browser waits for a manual login, the handler already
      reports `auth_required`, with the count raised by this cycle. */
  lemma ReportsAuthRequiredDuringLoginWait(r: AuthPinger.Register, cfg: AuthConfig, input: AuthPinger.CycleInput, uptime: real)
    requires !cfg.headless && AuthPinger.LandedIn(r, input) && AuthPinger.IsLoginUrl(input.landing.url)
    ensures AuthPinger.Step(r, cfg.headless, input).loginWait.Some?
    ensures
      var during := AuthPinger.Step(r, cfg.headless, input).loginWait.value;
      && AuthRespond("/health", during, cfg, uptime).body.status == "auth_required"
      && AuthRespond("/health", during, cfg, uptime).body.pingCount == r.status.pingCount + 1
  {
  }
}

=== FILE: js_number.dfy ===
/** The two number/text conversions the daemon relies on: `parseInt` with no
    radix (configuration values from the environment) and the rendering of an
    integer inside a template string (`HTTP ${status}`). Numbers are modelled
    as unbounded integers; `NaN` is `None`. */
module JsNumber {
  import opened Results

  /** ECMAScript StrWhiteSpaceChar: the white space and line terminators that
      `parseInt` skips before the number. */
  predicate IsStrWhiteSpace(c: char)
  {
    var n := c as int;
    n == 0x09 || n == 0x0A || n == 0x0B || n == 0x0C || n == 0x0D || n == 0x20
    || n == 0xA0 || n == 0x1680 || (0x2000 <= n <= 0x200A) || n == 0x2028
    || n == 0x2029 || n == 0x202F || n == 0x205F || n == 0x3000 || n == 0xFEFF
  }

  /** `s` with its leading white space removed. */
  function TrimStart(s: string): (r: string)
    ensures |r| <= |s| && r == s[|s| - |r|..]
    ensures forall i :: 0 <= i < |s| - |r| ==> IsStrWhiteSpace(s[i])
    ensures |r| == 0 || !IsStrWhiteSpace(r[0])
  {
    if |s| > 0 && IsStrWhiteSpace(s[0]) then TrimStart(s[1..]) else s
  }

  /** The value of `c` as a digit of radix 36, or 36 when it is no digit. */
  function DigitValue(c: char): (d: nat)
    ensures d <= 36
  {
    if '0' <= c <= '9' then c as int - '0' as int
    else if 'a' <= c <= 'z' then c as int - 'a' as int + 10
    else if 'A' <= c <= 'Z' then c as int - 'A' as int + 10
    else 36
  }

  predicate IsDigitIn(c: char, radix: nat)
  {
    DigitValue(c) < radix
  }

  predicate AllDigitsIn(z: string, radix: nat)
  {
    forall i :: 0 <= i < |z| ==> IsDigitIn(z[i], radix)
  }

  /** The longest prefix of `s` made of radix-`radix` digits. */
  function DigitPrefix(s: string, radix: nat): (r: string)
    ensures |r| <= |s| && r == s[..|r|]
    ensures AllDigitsIn(r, radix)
    ensures |r| == |s| || !IsDigitIn(s[|r|], radix)
  {
    if |s| > 0 && IsDigitIn(s[0], radix) then [s[0]] + DigitPrefix(s[1..], radix) else []
  }

  /** The value of a digit string read most significant digit first. */
  function DigitsValue(z: string, radix: nat): nat
    requires AllDigitsIn(z, radix)
  {
    if |z| == 0 then 0 else DigitsValue(z[..|z| - 1], radix) * radix + DigitValue(z[|z| - 1])
  }

  /** `parseInt(s)` with no radix argument (ECMAScript section 19.2.5): skip
      leading white space, take one optional sign, switch to radix 16 after
      `0x`/`0X`, then read the longest run of digits; no digit at all is `NaN`.
      `-0` is read as 0. */
  function ParseInt(s: string): (r: Option<int>)
    ensures |TrimStart(s)| == 0 ==> r.None?
    ensures r.Some? && r.value < 0 ==> TrimStart(s)[0] == '-'
  {
    var t := TrimStart(s);
    ParseSigned(t)
  }

  /** What `parseInt` reads once white space is skipped. */
  function ParseSigned(t: string): Option<int>
  {
    if |t| > 0 && t[0] == '-' then Negate(ParseUnsigned(t[1..]))
    else if |t| > 0 && t[0] == '+' then ParseUnsigned(t[1..])
    else ParseUnsigned(t)
  }

  function Negate(r: Option<int>): Option<int>
  {
    if r.Some? then Some(-r.value) else None
  }

  /** The digits after the sign: hexadecimal after `0x`/`0X`, decimal otherwise. */
  function ParseUnsigned(u: string): (r: Option<int>)
    ensures r.Some? ==> r.value >= 0
  {
    if |u| >= 2 && u[0] == '0' && (u[1] == 'x' || u[1] == 'X') then ReadDigits(u[2..], 16)
    else ReadDigits(u, 10)
  }

  function ReadDigits(v: string, radix: nat): Option<int>
  {
    var z := DigitPrefix(v, radix);
    if |z| == 0 then None else Some(DigitsValue(z, radix))
  }

  function DigitChar(d: nat): (c: char)
    requires d < 10
    ensures IsDigitIn(c, 10) && DigitValue(c) == d
  {
    (d + '0' as int) as char
  }

  /** The decimal text JavaScript produces for a non-negative integer. */
  function NatToDecimal(n: nat): (r: string)
    ensures |r| >= 1
    ensures AllDigitsIn(r, 10)
  {
    if n < 10 then [DigitChar(n)] else NatToDecimal(n / 10) + [DigitChar(n % 10)]
  }

  /** The text of an integer in a template string: a `-` before negatives. */
  function IntToDecimal(n: int): (r: string)
    ensures |r| >= 1
    ensures n >= 0 ==> AllDigitsIn(r, 10)
    ensures n >= 0 ==> (r[0] == '0' <==> n == 0)
    ensures n == 0 ==> r == "0"
    ensures n < 0 ==> |r| >= 2 && r[0] == '-' && AllDigitsIn(r[1..], 10) && r[1] != '0'
  {
    if n < 0 then
      NatToDecimalLeadingZero(-n);
      "-" + NatToDecimal(-n)
    else
      NatToDecimalLeadingZero(n);
      NatToDecimal(n)
  }

  /** The decimal text is canonical: it starts with `0` only for zero itself. */
  lemma {:induction false} NatToDecimalLeadingZero(n: nat)
    ensures NatToDecimal(n)[0] == '0' <==> n == 0
  {
    if n >= 10 {
      NatToDecimalLeadingZero(n / 10);
    }
  }

  /** Reading back the decimal digits of `n` yields `n`. */
  lemma {:induction false} NatToDecimalValue(n: nat)
    ensures DigitsValue(NatToDecimal(n), 10) == n
  {
    if n >= 10 {
      var p := NatToDecimal(n / 10);
      var r := p + [DigitChar(n % 10)];
      assert r[..|r| - 1] == p;
      NatToDecimalValue(n / 10);
    }
  }

  /** A digit run followed by a non-digit (or by nothing) is read up to the non-digit. */
  lemma {:induction false} DigitPrefixOfRun(d: string, rest: string, radix: nat)
    requires AllDigitsIn(d, radix)
    requires |rest| == 0 || !IsDigitIn(rest[0], radix)
    ensures DigitPrefix(d + rest, radix) == d
  {
    if |d| > 0 {
      assert (d + rest)[1..] == d[1..] + rest;
      DigitPrefixOfRun(d[1..], rest, radix);
    }
  }

  /** Leading white space never changes what `parseInt` reads. */
  lemma {:induction false} TrimStartAbsorbsWhiteSpace(w: string, s: string)
    requires forall i :: 0 <= i < |w| ==> IsStrWhiteSpace(w[i])
    ensures TrimStart(w + s) == TrimStart(s)
  {
    if |w| > 0 {
      assert (w + s)[1..] == w[1..] + s;
      TrimStartAbsorbsWhiteSpace(w[1..], s);
    } else {
      assert w + s == s;
    }
  }

  lemma ParseIntIgnoresLeadingWhiteSpace(w: string, s: string)
    requires forall i :: 0 <= i < |w| ==> IsStrWhiteSpace(w[i])
    ensures ParseInt(w + s) == ParseInt(s)
  {
    TrimStartAbsorbsWhiteSpace(w, s);
  }

  /** A decimal digit run followed by a non-digit is read as that run,
      unless the run is a lone `0` followed by `x` or `X`. */
  lemma ReadDecimalRun(d: string, rest: string)
    requires |d| >= 1 && AllDigitsIn(d, 10)
    requires |rest| == 0 || !IsDigitIn(rest[0], 10)
    requires d[0] != '0' || |d| > 1 || |rest| == 0 || (rest[0] != 'x' && rest[0] != 'X')
    ensures ParseUnsigned(d + rest) == Some(DigitsValue(d, 10))
  {
    var t := d + rest;
    DigitPrefixOfRun(d, rest, 10);
    assert !(|t| >= 2 && t[0] == '0' && (t[1] == 'x' || t[1] == 'X')) by {
      if |d| > 1 {
        assert t[1] == d[1];
      } else if |rest| > 0 {
        assert t[1] == rest[0];
      }
    }
    assert ParseUnsigned(t) == ReadDigits(t, 10);
  }

  /** Text starting with a decimal digit has no white space or sign to skip. */
  lemma ReadDecimalText(d: string, rest: string)
    requires |d| >= 1 && AllDigitsIn(d, 10)
    requires |rest| == 0 || !IsDigitIn(rest[0], 10)
    requires d[0] != '0' || |d| > 1 || |rest| == 0 || (rest[0] != 'x' && rest[0] != 'X')
    ensures TrimStart(d + rest) == d + rest
    ensures ParseInt(d + rest) == Some(DigitsValue(d, 10))
  {
    ReadDecimalRun(d, rest);
    assert (d + rest)[0] == d[0];
    StartsWithDigit(d + rest);
  }

  lemma StartsWithDigit(t: string)
    requires |t| > 0 && IsDigitIn(t[0], 10)
    ensures TrimStart(t) == t
    ensures ParseSigned(t) == ParseUnsigned(t)
  {
    assert !IsStrWhiteSpace(t[0]) && t[0] != '-' && t[0] != '+';
  }

  /** `parseInt` reads back the decimal text of every integer, so the rendering
      of a status code and the reading of a configuration value agree. */
  lemma ParseIntOfDecimal(n: int)
    ensures ParseInt(IntToDecimal(n)) == Some(n)
  {
    var m: nat := if n < 0 then -n else n;
    var d := NatToDecimal(m);
    NatToDecimalValue(m);
    ReadDecimalText(d, []);
    ReadDecimalRun(d, []);
    assert d + [] == d;
    if n < 0 {
      ParseIntAfterMinus(d);
      assert IntToDecimal(n) == "-" + d;
    } else {
      assert IntToDecimal(n) == d;
    }
  }

  /** A leading minus negates what the rest reads. */
  lemma ParseIntAfterMinus(u: string)
    ensures ParseInt("-" + u) == Negate(ParseUnsigned(u))
  {
    var t := "-" + u;
    assert t[0] == '-' && !IsStrWhiteSpace(t[0]);
    assert TrimStart(t) == t;
    assert t[1..] == u;
  }


  lemma SingleDigitValue(d: string)
    requires |d| == 1 && AllDigitsIn(d, 10)
    ensures DigitsValue(d, 10) == DigitValue(d[0])
  {
    assert d[..0] == [];
  }

  /** A decimal number followed by text that is not a digit is read up to the
      text, except that `0x` switches to hexadecimal: `parseInt("0x")` is `NaN`. */
  lemma ParseIntStopsAtNonDigit(n: nat, rest: string)
    requires |rest| == 0 || !IsDigitIn(rest[0], 10)
    requires n != 0 || |rest| == 0 || (rest[0] != 'x' && rest[0] != 'X')
    ensures ParseInt(NatToDecimal(n) + rest) == Some(n)
  {
    var d := NatToDecimal(n);
    NatToDecimalValue(n);
    if |d| == 1 {
      SingleDigitValue(d);
    }
    ReadDecimalText(d, rest);
  }

  lemma ParseIntReadsLeadingDigits()
    ensures ParseInt("42px") == Some(42)
  {
    var d := NatToDecimal(42);
    assert d == "42" by {
      assert NatToDecimal(4) == "4";
    }
    assert "42px" == d + "px";
    assert !IsDigitIn('p', 10);
    ParseIntStopsAtNonDigit(42, "px");
  }

  lemma ParseIntSkipsSpaces()
    ensures ParseInt("  42px") == ParseInt("42px")
  {
    var w, t := "  ", "42px";
    assert "  42px" == w + t;
    assert forall i :: 0 <= i < |w| ==> IsStrWhiteSpace(w[i]);
    ParseIntIgnoresLeadingWhiteSpace(w, t);
  }

  lemma ParseIntReadsHexadecimal()
    ensures ParseInt("0x1A") == Some(26)
    ensures ParseInt("0x") == None
  {
    assert !IsStrWhiteSpace('0');
    assert TrimStart("0x1A") == "0x1A";
    assert ParseSigned("0x1A") == ParseUnsigned("0x1A") == ReadDigits("1A", 16);
    assert DigitPrefix("", 16) == [];
    assert DigitPrefix("A", 16) == "A";
    assert DigitPrefix("1A", 16) == "1A";
    assert "1A"[..1] == "1" && "1"[..0] == [];
    assert DigitsValue("1", 16) == 1;
    assert DigitsValue("1A", 16) == 26;
    assert TrimStart("0x") == "0x";
    assert ParseSigned("0x") == ParseUnsigned("0x") == ReadDigits([], 16);
  }

  lemma ParseIntRejectsNonNumbers()
    ensures ParseInt("abc") == None
    ensures ParseInt("") == None
  {
    assert !IsStrWhiteSpace('a');
    assert TrimStart("abc") == "abc";
    assert !IsDigitIn('a', 10);
    assert DigitPrefix("abc", 10) == [];
    assert ParseUnsigned("abc") == None;
    assert ParseSigned("abc") == None;
  }
}

=== FILE: plain_pinger.dfy ===
/** The plain pinger of index.js: the options of its HTTPS/HTTP GET and the
    updates its response, error and timeout handlers make to the status
    register. */
module PlainPinger {
  import opened Results
  import opened StatusRegister

  /** The parts of `new URL(IDX_WORKSPACE_URL)` the request uses. `port` is
      `None` where the URL's `port` is the empty string (no port given, or the
      scheme's default port, which URL parsing drops). */
  datatype ParsedUrl = ParsedUrl(protocol: string, hostname: string, port: Option<nat>, pathname: string, search: string)

  datatype Transport = Https | Http

  datatype RequestOptions = RequestOptions(
    transport: Transport,
    hostname: string,
    port: nat,
    path: string,
    verb: string,
    headers: map<string, string>,
    timeoutMs: nat)

  const UserAgent: string := "IDX-KeepAlive/1.0"
  const RequestTimeoutMs: nat := 30000

  /** The port a request uses when the URL names none. */
  function DefaultPort(protocol: string): (p: nat)
    ensures p == 443 || p == 80
    ensures p == 443 <==> protocol == "https:"
  {
    if protocol == "https:" then 443 else 80
  }

  /** The request `pingIDXWorkspace` sends: HTTPS exactly for `https:` URLs,
      the URL's own port or else the scheme's default, path and query as
      given, two fixed headers and a `Cookie` header exactly when a session
      cookie is configured. */
  function BuildRequest(url: ParsedUrl, sessionCookie: string): (o: RequestOptions)
    ensures o.transport == Https <==> url.protocol == "https:"
    ensures url.port.Some? ==> o.port == url.port.value
    ensures url.port.None? ==> o.port == DefaultPort(url.protocol)
    ensures o.hostname == url.hostname && o.path == url.pathname + url.search
    ensures o.verb == "GET" && o.timeoutMs == 30000
    ensures "Cookie" in o.headers <==> sessionCookie != ""
    ensures "Cookie" in o.headers ==> o.headers["Cookie"] == sessionCookie
    ensures o.headers.Keys - {"Cookie"} == {"User-Agent", "Accept"}
    ensures o.headers["User-Agent"] == UserAgent && o.headers["Accept"] == "*/*"
  {
    var fixed := map["User-Agent" := UserAgent, "Accept" := "*/*"];
    RequestOptions(
      if url.protocol == "https:" then Https else Http,
      url.hostname,
      if url.port.Some? then url.port.value else DefaultPort(url.protocol),
      url.pathname + url.search,
      "GET",
      if sessionCookie != "" then fixed["Cookie" := sessionCookie] else fixed,
      RequestTimeoutMs)
  }

  /** A response status that the pinger logs as alive. */
  predicate IsAlive(code: int)
  {
    200 <= code < 400
  }

  /** Alive means a success (2xx) or redirection (3xx) status. */
  lemma AliveMeansSuccessOrRedirect(code: int)
    ensures IsAlive(code) <==> code / 100 == 2 || code / 100 == 3
  {
  }

  /** What the request reports back. A `TimedOut` event is the `timeout`
      handler, which only destroys the request; an error that destruction
      raises arrives as its own `Failed` event. */
  datatype Event =
    | Ended(code: int, stamp: string)
    | Failed(message: string, stamp: string)
    | TimedOut

  /** The register update of one handler: the `end` and `error` handlers
      count the ping and record `HTTP <code>` or `ERROR: <message>`; the
      `timeout` handler changes nothing. */
  function Apply(s: Status, e: Event): (s': Status)
    ensures e.Ended? ==> s' == Status(s.pingCount + 1, HttpStatus(e.code), Some(e.stamp))
    ensures e.Failed? ==> s' == Status(s.pingCount + 1, ErrorStatus(e.message), Some(e.stamp))
    ensures e.TimedOut? ==> s' == s
  {
    match e
    case Ended(code, stamp) => Status(s.pingCount + 1, HttpStatus(code), Some(stamp))
    case Failed(message, stamp) => Status(s.pingCount + 1, ErrorStatus(message), Some(stamp))
    case TimedOut => s
  }

  /** The number of events that count a ping. */
  function Completed(events: seq<Event>): (n: nat)
    ensures n <= |events|
  {
    if |events| == 0 then 0
    else Completed(events[..|events| - 1]) + (if events[|events| - 1].TimedOut? then 0 else 1)
  }

  /** The register after a run of handler events. */
  function Replay(s: Status, events: seq<Event>): (s': Status)
    ensures s'.pingCount == s.pingCount + Completed(events)
    ensures Completed(events) == 0 ==> s' == s
  {
    if |events| == 0 then s
    else Apply(Replay(s, events[..|events| - 1]), events[|events| - 1])
  }

  /** The status after a run is set by the last event that is not a timeout. */
  lemma {:induction false} LastHandlerDecidesStatus(s: Status, events: seq<Event>, k: nat)
    requires k < |events| && !events[k].TimedOut?
    requires forall j :: k < j < |events| ==> events[j].TimedOut?
    ensures Replay(s, events).lastPingStatus
         == (if events[k].Ended? then HttpStatus(events[k].code) else ErrorStatus(events[k].message))
    ensures Replay(s, events).lastPingTime == Some(events[k].stamp)
  {
    if k < |events| - 1 {
      var init := events[..|events| - 1];
      assert init[k] == events[k];
      assert forall j :: k < j < |init| ==> init[j].TimedOut? by {
        forall j | k < j < |init| ensures init[j].TimedOut? {
          assert init[j] == events[j];
        }
      }
      LastHandlerDecidesStatus(s, init, k);
    }
  }
}

=== FILE: results.dfy ===
/** Failure-carrying wrappers used throughout the model.
    `Option` stands for JavaScript's `null`/`undefined` versus a value;
    `Result` for a call that either returns a value or throws an `Error`
    whose `message` is kept. */
module Results {

  datatype Option<+T> = None | Some(value: T)

  datatype Result<+T> = Ok(value: T) | Err(message: string)
}

=== FILE: status_register.dfy ===
/** The process-wide status register both pingers keep and both health
    handlers report, and the texts its `lastPingStatus` can hold. */
module StatusRegister {
  import opened Results
  import opened JsNumber

  const NeverPinged: string := "never pinged"
  const AuthRequired: string := "AUTH_REQUIRED"
  const LoginSuccess: string := "LOGIN_SUCCESS"

  /** `HTTP ${code}`. */
  function HttpStatus(code: int): (s: string)
    ensures |s| > 5 && s[..5] == "HTTP "
    ensures s[5..] == IntToDecimal(code)
  {
    "HTTP " + IntToDecimal(code)
  }

  /** The status code can be read back from the status text. */
  lemma HttpStatusReadsBack(code: int)
    ensures ParseInt(HttpStatus(code)[5..]) == Some(code)
  {
    assert HttpStatus(code)[5..] == IntToDecimal(code);
    ParseIntOfDecimal(code);
  }

  /** `ERROR: ${message}`: the message follows the fixed prefix unchanged. */
  function ErrorStatus(message: string): (s: string)
    ensures |s| == |message| + 7 && s[..7] == "ERROR: " && s[7..] == message
  {
    "ERROR: " + message
  }

  /** `pingCount`, `lastPingStatus` and `lastPingTime` (an ISO timestamp, or
      `null` before the first ping). */
  datatype Status = Status(pingCount: nat, lastPingStatus: string, lastPingTime: Option<string>)

  const Initial: Status := Status(0, NeverPinged, None)

  /** The five kinds of status text never coincide, so a status names its kind. */
  lemma StatusKindsDistinct(code: int, message: string)
    ensures HttpStatus(code) != NeverPinged && HttpStatus(code) != AuthRequired
    ensures HttpStatus(code) != LoginSuccess && HttpStatus(code) != ErrorStatus(message)
    ensures ErrorStatus(message) != NeverPinged && ErrorStatus(message) != AuthRequired
    ensures ErrorStatus(message) != LoginSuccess
  {
    var h, e := HttpStatus(code), ErrorStatus(message);
    assert h[0] == 'H' && e[0] == 'E';
    assert NeverPinged[0] == 'n' && AuthRequired[0] == 'A' && LoginSuccess[0] == 'L';
  }

  /** Different status codes give different status texts. */
  lemma HttpStatusInjective(a: int, b: int)
    requires HttpStatus(a) == HttpStatus(b)
    ensures a == b
  {
    HttpStatusReadsBack(a);
    HttpStatusReadsBack(b);
  }

  /** Status 200 is recorded as `HTTP 200`. */
  lemma HttpStatusOk(code: int)
    requires code == 200
    ensures HttpStatus(code) == "HTTP 200"
  {
    var tens: nat := code / 10;
    var hundreds: nat := tens / 10;
    assert NatToDecimal(hundreds) == "2";
    assert NatToDecimal(tens) == "2" + "0";
    assert NatToDecimal(code) == "2" + "0" + "0";
  }
}

=== FILE: text.dfy ===
/** String containment as JavaScript's `String.prototype.includes` decides it.
    The daemon classifies critical cookie names, login and workspace URLs and
    crashed-browser error messages by containment. */
module Text {

  /** `sub` occurs in `s` starting at index `i`. */
  ghost predicate OccursAt(s: string, sub: string, i: int)
  {
    0 <= i && i + |sub| <= |s| && s[i..i + |sub|] == sub
  }

  predicate IsPrefix(p: string, s: string)
  {
    |p| <= |s| && s[..|p|] == p
  }

  /** `s.includes(sub)`: true exactly when `sub` occurs somewhere in `s`
      (the empty string occurs everywhere). */
  function Contains(s: string, sub: string): (r: bool)
    ensures r <==> exists i :: OccursAt(s, sub, i)
    decreases |s|
  {
    if IsPrefix(sub, s) then
      assert OccursAt(s, sub, 0);
      true
    else if |s| == 0 then
      false
    else
      ShiftOccurrence(s, sub);
      Contains(s[1..], sub)
  }

  /** When `sub` does not start `s`, it occurs in `s` exactly when it occurs in `s[1..]`. */
  lemma ShiftOccurrence(s: string, sub: string)
    requires |s| > 0
    requires !IsPrefix(sub, s)
    ensures (exists i :: OccursAt(s[1..], sub, i)) <==> (exists i :: OccursAt(s, sub, i))
  {
    if i :| OccursAt(s[1..], sub, i) {
      assert s[1..][i..i + |sub|] == s[i + 1..i + 1 + |sub|];
      assert OccursAt(s, sub, i + 1);
    }
    if i :| OccursAt(s, sub, i) {
      assert i != 0;
      assert s[1..][i - 1..i - 1 + |sub|] == s[i..i + |sub|];
      assert OccursAt(s[1..], sub, i - 1);
    }
  }

  /** Text placed between any two strings is contained in the result. */
  lemma ContainsPlaced(a: string, sub: string, b: string)
    ensures Contains(a + sub + b, sub)
  {
    assert (a + sub + b)[|a|..|a| + |sub|] == sub;
    assert OccursAt(a + sub + b, sub, |a|);
  }
}
